=== FILE: README.md ===
# Workout statistics calculator — a Dafny model

This project models the fitness-tracker calculator in `homework.py`.
It takes a sensor package, which is an activity code and a list of readings.
It builds the matching training: running, sports walking or swimming.
It then reports the training's distance, mean speed and calories as an `InfoMessage` record.

Modules:

- `Outcome` (`outcome.dfy`): the exceptions of the program that the model keeps, as a `Result`. Float overflow is not among them (see "## Left out").
  - An unknown activity code raises a `KeyError` (`UnknownWorkoutType`).
  - A parameter list of the wrong length raises a `TypeError` (`WrongArgumentCount`).
  - A zero duration or zero walking height raises a `ZeroDivisionError` (`ZeroDivision`).
- `Workouts` (`workouts.dfy`):
  - the `Training` class hierarchy, as a three-constructor `Workout` datatype;
  - the `InfoMessage` record;
  - the distance, mean-speed and calorie formulas;
  - `ShowTrainingInfo`;
  - lemmas about the formulas.
- `Packages` (`packages.dfy`):
  - the code-to-class table and `read_package`, with positional binding and arity checking;
  - the parameter list of a training, which is the inverse of `read_package`;
  - the entry point's loop over packages, without its printing.
- `Samples` (`samples.dfy`): the three sample packages of the entry point, worked through exactly.

All quantities are exact `real`s, not IEEE doubles.
Python's float floor division `speed ** 2 // height` becomes `(speed * speed / height).Floor`.
`WalkingFloorTerm` states what that term means: the whole number `k` with `k * height <= speed² < (k + 1) * height` when the height is positive.
The reversed bounds hold when the height is negative.

Floor division in the walking formula looks odd, but the code uses it, so the model keeps it.
`WalkingFloorBelowTrueDivision` bounds the effect of the floor.
For a positive weight, duration and height, the walking calories are never higher than with true division.
Under the same conditions they are lower by less than `0.029 × weight × minutes`.

Behaviour of the code that the model keeps:

- The running sample `(15000, 1, 75)` gives exactly 699.75 kcal.
- An unknown code is a plain dictionary `KeyError`.
- A wrong parameter count is the constructor's `TypeError`.

## Model

| member | source | states |
|---|---|---|
| `Workouts.Distance` | homework.py:41-44 | distance is never negative for a non-negative action count, and positive for a positive one |
| `Workouts.DistanceUsesVariantStep` | homework.py:28-131 | distance × 1000 is action × 0.65 for running and walking, and action × 1.38 for a swimming stroke |
| `Workouts.MeanSpeed` | homework.py:46-139 | for running and walking, mean speed × duration equals the distance; for swimming, speed × duration × 1000 equals pool length × pool count |
| `Workouts.MeanSpeedNonNegative` | homework.py:46-49 | with a positive duration the mean speed is ≥ 0 when the action count is ≥ 0 (for swimming: when pool length × count is ≥ 0) |
| `Workouts.SwimmingSpeedIgnoresStrokes` | homework.py:133-139 | two swims differing only in stroke count have equal speed and calories; their distances are equal exactly when the stroke counts are |
| `Workouts.WalkingFloorTerm` | homework.py:105 | `speed ** 2 // height` is the integer k with k·height ≤ speed² < (k+1)·height for a positive height, and with the reversed bounds for a negative one |
| `Workouts.FloorTermZero` | homework.py:103-106 | the floor term is 0 when speed² is below a positive height |
| `Workouts.ShowTrainingInfo` | homework.py:55-61 | the summary succeeds exactly when no divisor is zero; it then holds the class name, the unchanged duration, and the variant's distance, speed and calories; otherwise it is a zero-division failure |
| `Workouts.SpentCalories` | homework.py:51-149 | the calories of a training are those of its own class's override: running, sports walking or swimming |
| `Workouts.RunningCalories` | homework.py:74-82 | running calories equal 0.000702 × steps × weight − 1.2 × weight × hours, because the duration cancels out of the speed term |
| `Workouts.RunningCaloriesSign` | homework.py:74-82 | for a positive weight and duration, running calories are positive exactly when 18 × speed > 20, and zero exactly when 18 × speed = 20 |
| `Workouts.WalkingCalories` | homework.py:97-107 | walking calories equal (2.1 + 1.74 × floor term) × weight × hours |
| `Workouts.WalkingSlowIsFlat` | homework.py:97-107 | when speed² is below the height, walking calories reduce to 0.035 × weight × minutes |
| `Workouts.WalkingFloorBelowTrueDivision` | homework.py:103-106 | for a positive weight, duration and height, floor division never gives more calories than true division, and gives less by under 0.029 × weight × minutes |
| `Workouts.SwimmingCalories` | homework.py:141-149 | swimming calories equal 2 × weight × (pool km per hour) + 2.2 × weight |
| `Workouts.SwimmingCaloriesPositive` | homework.py:141-149 | swimming calories are strictly positive for a positive weight and duration and a non-negative pool distance |
| `Packages.Construct` | homework.py:159 | calling a class with a spread list succeeds exactly when the list has the constructor's arity; the training's parameter list is then the input list; otherwise it fails with the class name, the expected count and the given count |
| `Packages.ReadPackage` | homework.py:152-160 | an unknown code fails whatever the readings; success holds exactly for SWM with 5, RUN with 3 or WLK with 4 readings; the result's code and parameter list are the input's |
| `Packages.ReadPackageRoundTrip` | homework.py:152-160 | reading a training's own code and parameter list gives back that training |
| `Packages.CodeAndParamsDetermineWorkout` | homework.py:154-159 | two trainings with the same code and parameter list are equal, so reading is injective |
| `Packages.Summarize` | homework.py:176-177 | a package's summary succeeds exactly when it is read and has no zero divisor; a read failure is passed on unchanged; after a successful read the result is exactly the training's `ShowTrainingInfo`, so every field of the record is fixed |
| `Packages.ProcessPackages` | homework.py:176-178 | the driver shows package i's summary for each i before it stops; it completes exactly when every package was shown; when it aborts, the first unshown package's summary raised the reported error |
| `Samples.RunningSample` | homework.py:172 | Running(15000, 1, 75): distance 9.75, speed 9.75, calories 699.75 |
| `Samples.WalkingSample` | homework.py:173 | SportsWalking(9000, 1, 75, 180): distance 5.85, speed 5.85, floor term 0, calories 157.5 |
| `Samples.SwimmingSample` | homework.py:171 | Swimming(720, 1, 80, 25, 40): distance 0.9936, speed 1.0, calories 336.0 |
| `Samples.SamplesTranscript` | homework.py:169-178 | the three sample packages yield the three summaries above, in package order, and the driver completes |
| `Samples.UnknownCodeFails` | homework.py:154-159 | the code "XYZ" fails at the table lookup for every parameter list |

## Left out

- `InfoMessage.get_message` (homework.py:17-22): the model does not render the record as text. That method formats each number to three decimals with Russian labels. The record's field order is kept: type, duration, distance, speed, calories.
- `main` and the printing in the entry point (homework.py:163-178): console output is not modelled. `ProcessPackages` models the loop's reading, summarising and order, and stops at the first exception.
- `Training.get_spent_calories` (homework.py:51-53): the base version returns `None`. With a closed three-variant datatype it cannot be reached.
- IEEE-754 rounding: every formula is over exact reals. The results printed by the program can differ from them by rounding.
- Float range: every result is a finite real, but the program works in doubles. It differs from the model in three ways:
  - an `int` reading too large for a double raises `OverflowError` wherever it is combined with a float. Examples: the action count in `get_distance` (homework.py:43), the duration as a divisor of a float (homework.py:48, 138), and the weight in a calorie product (homework.py:80-81, 104-106, 148). Python divides two ints exactly. So when `length_pool` and `count_pool` are both ints, `length_pool * count_pool / 1000` (homework.py:135-137) raises only if the quotient is above about 1.8e308;
  - `** 2` raises `OverflowError` when the mean speed is above about 1.3e154 (homework.py:105);
  - a float result beyond the double range, about 1.8e308, becomes `inf` and prints as `inf`; no exception is raised. For example, a weight of 1e308 gives `inf` running calories (homework.py:80-81).
- Python's dynamic typing: every reading is a `real`. The `int` annotations on `action` and `count_pool` are not enforced by Python. Readings that are not numbers are not modelled; in Python they would raise a `TypeError` during arithmetic.
- The formula functions require non-zero divisors: `MeanSpeed`, `WalkingFloorTerm`, `RunningCalories`, `WalkingCalories`, `SwimmingCalories` and `SpentCalories`. In Python a zero divisor is a `ZeroDivisionError`. That error is modelled in `ShowTrainingInfo`, which is the only caller that can meet it.

=== FILE: outcome.dfy ===
/** The ways a computation of the workout calculator can stop early.
    The program itself raises Python exceptions; here each one the model
    keeps becomes a value of `Error`, carried by the `Failure` side of a
    `Result`. Float overflow is not among them.
 */
module Outcome {

  /** The exceptions of the calculator that the model keeps. */
  datatype Error =
      /** the activity code is not a key of the code-to-class table (a `KeyError`) */
    | UnknownWorkoutType(code: string)
      /** the parameter list does not match the constructor's arity (a `TypeError`) */
    | WrongArgumentCount(className: string, expected: nat, given: nat)
      /** a division by a zero duration or a zero height (a `ZeroDivisionError`) */
    | ZeroDivision

  /** Either the value a computation returns or the exception it raises. */
  datatype Result<+T> = Success(value: T) | Failure(error: Error)
}

=== FILE: packages.dfy ===
/** Turning a sensor package (an activity code and a list of readings) into
    a training, and the driver that summarises a sequence of packages.
 */
module Packages {
  import opened Outcome
  import opened Workouts

  /** The table from activity code to training class. */
  const WorkoutTypes: map<string, WorkoutClass> :=
    map["SWM" := SwimmingClass, "RUN" := RunningClass, "WLK" := SportsWalkingClass]

  /** The number of positional parameters the class's constructor takes. */
  function Arity(cls: WorkoutClass): nat {
    match cls
    case SwimmingClass => 5
    case RunningClass => 3
    case SportsWalkingClass => 4
  }

  /** The code under which a training's class is registered in the table. */
  function Code(w: Workout): string {
    match w
    case Swimming(_, _, _, _, _) => "SWM"
    case Running(_, _, _) => "RUN"
    case SportsWalking(_, _, _, _) => "WLK"
  }

  /** The constructor arguments of a training, in declaration order. */
  function Params(w: Workout): seq<real> {
    match w
    case Running(a, d, wt) => [a, d, wt]
    case SportsWalking(a, d, wt, h) => [a, d, wt, h]
    case Swimming(a, d, wt, l, c) => [a, d, wt, l, c]
  }

  /** Calling the class's constructor with `data` spread as positional
      arguments: it succeeds exactly when the list has the constructor's
      arity, and then binds the list in order. */
  function Construct(cls: WorkoutClass, data: seq<real>): (r: Result<Workout>)
    ensures r.Success? <==> |data| == Arity(cls)
    ensures r.Success? ==> ClassOf(r.value) == cls && Params(r.value) == data
    ensures r.Failure? ==> r.error == WrongArgumentCount(ClassName(cls), Arity(cls), |data|)
  {
    if |data| != Arity(cls) then
      Failure(WrongArgumentCount(ClassName(cls), Arity(cls), |data|))
    else
      match cls
      case SwimmingClass => Success(Swimming(data[0], data[1], data[2], data[3], data[4]))
      case RunningClass => Success(Running(data[0], data[1], data[2]))
      case SportsWalkingClass => Success(SportsWalking(data[0], data[1], data[2], data[3]))
  }

  /** Reads one package: looks the code up in the table (an unknown code
      fails whatever the readings), then constructs the class from the
      readings. */
  function ReadPackage(workoutType: string, data: seq<real>): (r: Result<Workout>)
    ensures workoutType !in WorkoutTypes ==> r == Failure(UnknownWorkoutType(workoutType))
    ensures r.Success? <==>
      || (workoutType == "SWM" && |data| == 5)
      || (workoutType == "RUN" && |data| == 3)
      || (workoutType == "WLK" && |data| == 4)
    ensures r.Success? ==> Code(r.value) == workoutType && Params(r.value) == data
    ensures workoutType in WorkoutTypes && r.Failure? ==>
      r.error == WrongArgumentCount(ClassName(WorkoutTypes[workoutType]),
                                    Arity(WorkoutTypes[workoutType]), |data|)
  {
    if workoutType !in WorkoutTypes then
      Failure(UnknownWorkoutType(workoutType))
    else
      Construct(WorkoutTypes[workoutType], data)
  }

  /** Every training is read back from its own code and parameter list. */
  lemma ReadPackageRoundTrip(w: Workout)
    ensures ReadPackage(Code(w), Params(w)) == Success(w)
  {
  }

  /** A training is determined by its code and its parameter list, so
      `ReadPackage` and the pair (`Code`, `Params`) are mutually inverse. */
  lemma CodeAndParamsDetermineWorkout(w1: Workout, w2: Workout)
    requires Code(w1) == Code(w2) && Params(w1) == Params(w2)
    ensures w1 == w2
  {
  }

  // ---------------------------------------------------------------------------
  // The driver: read each package in turn and summarise it
  // ---------------------------------------------------------------------------

  /** A package as the sensors deliver it: an activity code and its readings. */
  type Package = (string, seq<real>)

  /** Reads a package and summarises the resulting training. */
  function Summarize(p: Package): (r: Result<InfoMessage>)
    ensures r.Success? <==> ReadPackage(p.0, p.1).Success? && NoZeroDivision(ReadPackage(p.0, p.1).value)
    ensures ReadPackage(p.0, p.1).Success? ==> r == ShowTrainingInfo(ReadPackage(p.0, p.1).value)
    ensures ReadPackage(p.0, p.1).Failure? ==> r == Failure(ReadPackage(p.0, p.1).error)
    ensures ReadPackage(p.0, p.1).Success? && r.Failure? ==> r.error == ZeroDivision
  {
    match ReadPackage(p.0, p.1)
    case Failure(e) => Failure(e)
    case Success(w) => ShowTrainingInfo(w)
  }

  /** What the driver shows before it finishes or stops at an exception. */
  datatype Transcript =
    | Completed(shown: seq<InfoMessage>)
    | Aborted(shown: seq<InfoMessage>, error: Error)

  /** Puts one more summary in front of a transcript. */
  function Prepend(m: InfoMessage, t: Transcript): (r: Transcript)
    ensures r.shown == [m] + t.shown
    ensures r.Completed? == t.Completed?
    ensures r.Aborted? ==> r.error == t.error
  {
    match t
    case Completed(s) => Completed([m] + s)
    case Aborted(s, e) => Aborted([m] + s, e)
  }

  /** The driver loop without its printing: summarises the packages in
      order and stops at the first one whose reading or summary raises. */
  function ProcessPackages(ps: seq<Package>): (r: Transcript)
    ensures |r.shown| <= |ps|
    ensures forall i :: 0 <= i < |r.shown| ==> Summarize(ps[i]) == Success(r.shown[i])
    ensures r.Completed? <==> |r.shown| == |ps|
    ensures r.Aborted? ==> Summarize(ps[|r.shown|]) == Failure(r.error)
  {
    if |ps| == 0 then
      Completed([])
    else
      match Summarize(ps[0])
      case Failure(e) => Aborted([], e)
      case Success(m) => Prepend(m, ProcessPackages(ps[1..]))
  }
}

=== FILE: samples.dfy ===
/** The three sample packages the program's entry point summarises, worked
    through the model: one swim, one run and one walk.
 */
module Samples {
  import opened Outcome
  import opened Workouts
  import opened Packages

  /** The sample packages, in the order the entry point lists them. */
  const SamplePackages: seq<Package> := [
    ("SWM", [720.0, 1.0, 80.0, 25.0, 40.0]),
    ("RUN", [15000.0, 1.0, 75.0]),
    ("WLK", [9000.0, 1.0, 75.0, 180.0])
  ]

  /** 15000 steps in an hour at 75 kg: 9.75 km at 9.75 km/h, 699.75 kcal. */
  lemma RunningSample()
    ensures Distance(Running(15000.0, 1.0, 75.0)) == 9.75
    ensures MeanSpeed(Running(15000.0, 1.0, 75.0)) == 9.75
    ensures SpentCalories(Running(15000.0, 1.0, 75.0)) == 699.75
  {
  }

  /** 9000 steps in an hour at 75 kg and 180 cm: 5.85 km at 5.85 km/h.
      The squared speed 34.2225 is below the height, so the floor term is
      zero and the calories are 0.035 * 75 * 60 = 157.5. */
  lemma WalkingSample()
    ensures Distance(SportsWalking(9000.0, 1.0, 75.0, 180.0)) == 5.85
    ensures MeanSpeed(SportsWalking(9000.0, 1.0, 75.0, 180.0)) == 5.85
    ensures WalkingFloorTerm(5.85, 180.0) == 0
    ensures SpentCalories(SportsWalking(9000.0, 1.0, 75.0, 180.0)) == 157.5
  {
  }

  /** 720 strokes in an hour at 80 kg, 40 lengths of a 25 m pool: 0.9936 km
      by strokes, 1.0 km/h by pool lengths, 336.0 kcal. */
  lemma SwimmingSample()
    ensures Distance(Swimming(720.0, 1.0, 80.0, 25.0, 40.0)) == 0.9936
    ensures MeanSpeed(Swimming(720.0, 1.0, 80.0, 25.0, 40.0)) == 1.0
    ensures SpentCalories(Swimming(720.0, 1.0, 80.0, 25.0, 40.0)) == 336.0
  {
  }

  /** The driver shows all three summaries, in the order of the packages. */
  lemma SamplesTranscript()
    ensures ProcessPackages(SamplePackages) == Completed([
      InfoMessage("Swimming", 1.0, 0.9936, 1.0, 336.0),
      InfoMessage("Running", 1.0, 9.75, 9.75, 699.75),
      InfoMessage("SportsWalking", 1.0, 5.85, 5.85, 157.5)
    ])
  {
  }

  /** An unknown code fails at the table lookup, whatever the readings. */
  lemma UnknownCodeFails(data: seq<real>)
    ensures ReadPackage("XYZ", data) == Failure(UnknownWorkoutType("XYZ"))
  {
  }
}

=== FILE: workouts.dfy ===
/** The training classes of the workout calculator: the shared distance and
    speed formulas, the three activity variants with their calorie formulas,
    and the summary record a training produces.

    Every quantity is an exact `real`. The program computes in IEEE doubles;
    rounding is not modelled.
 */
module Workouts {
  import opened Outcome

  /** Metres in a kilometre (`M_IN_KM`). */
  const MetersInKm: real := 1000.0
  /** Minutes in an hour (`HOUR_IN_MINUTE`). */
  const MinutesInHour: real := 60.0
  /** Length of one running or walking step, in metres. */
  const StepLength: real := 0.65
  /** Length of one swimming stroke, in metres. */
  const StrokeLength: real := 1.38

  /** Running: calories grow by this factor of the mean speed ... */
  const RunSpeedFactor: real := 18.0
  /** ... less this shift. */
  const RunSpeedShift: real := 20.0
  /** Walking: calories per kilogram per minute at any speed. */
  const WalkWeightFactor: real := 0.035
  /** Walking: extra calories per kilogram per minute per unit of the floor term. */
  const WalkSpeedHeightFactor: real := 0.029
  /** Swimming: added to the mean speed ... */
  const SwimSpeedShift: real := 1.1
  /** ... and the sum multiplied by this and by the weight. */
  const SwimWeightFactor: real := 2.0

  /** One training session: the sensor readings each variant's constructor
      takes, in the constructor's parameter order. `action` counts steps or
      strokes, `duration` is in hours, `weight` in kilograms, `height` in
      centimetres, `lengthPool` in metres and `countPool` counts pool lengths. */
  datatype Workout =
    | Running(action: real, duration: real, weight: real)
    | SportsWalking(action: real, duration: real, weight: real, height: real)
    | Swimming(action: real, duration: real, weight: real, lengthPool: real, countPool: real)

  /** The summary of one training, fields in the order the message shows them. */
  datatype InfoMessage = InfoMessage(
    trainingType: string,
    duration: real,
    distance: real,
    speed: real,
    calories: real)

  /** The training classes: one per variant of `Workout`. */
  datatype WorkoutClass = SwimmingClass | RunningClass | SportsWalkingClass

  /** The class a training is an instance of. */
  function ClassOf(w: Workout): WorkoutClass {
    match w
    case Swimming(_, _, _, _, _) => SwimmingClass
    case Running(_, _, _) => RunningClass
    case SportsWalking(_, _, _, _) => SportsWalkingClass
  }

  /** The name of a class, as the summary and a constructor error report it. */
  function ClassName(cls: WorkoutClass): string {
    match cls
    case SwimmingClass => "Swimming"
    case RunningClass => "Running"
    case SportsWalkingClass => "SportsWalking"
  }

  /** The name of the training's class (`type(self).__name__`), which the
      summary reports. */
  function Name(w: Workout): string {
    ClassName(ClassOf(w))
  }

  /** The metres covered by one action: a step, or a stroke when swimming. */
  function LenStep(w: Workout): real {
    if w.Swimming? then StrokeLength else StepLength
  }

  /** Training duration in minutes. */
  function DurationMinutes(w: Workout): real {
    w.duration * MinutesInHour
  }

  /** Distance covered, in kilometres. */
  function Distance(w: Workout): (r: real)
    ensures w.action >= 0.0 ==> r >= 0.0
    ensures w.action > 0.0 ==> r > 0.0
  {
    w.action * LenStep(w) / MetersInKm
  }

  /** Mean speed, in kilometres per hour. Running and walking divide the
      distance by the duration; swimming instead uses the pool length times
      the number of pool lengths, and ignores the stroke count. */
  function MeanSpeed(w: Workout): (r: real)
    requires w.duration != 0.0
    ensures !w.Swimming? ==> r * w.duration == Distance(w)
    ensures w.Swimming? ==> r * w.duration * MetersInKm == w.lengthPool * w.countPool
  {
    match w
    case Swimming(_, d, _, l, c) => l * c / MetersInKm / d
    case _ => Distance(w) / w.duration
  }

  /** The walking formula's `speed ** 2 // height`: the floor of the quotient,
      that is, the whole number of heights that fit under the squared speed. */
  function WalkingFloorTerm(speed: real, height: real): (k: int)
    requires height != 0.0
    ensures height > 0.0 ==> k as real * height <= speed * speed < (k + 1) as real * height
    ensures height < 0.0 ==> (k + 1) as real * height < speed * speed <= k as real * height
  {
    FloorScaled(speed * speed, height, speed * speed / height);
    (speed * speed / height).Floor
  }

  /** Multiplying `Floor(q) <= q < Floor(q) + 1` through by `h`, where
      `q * h == x`. */
  lemma FloorScaled(x: real, h: real, q: real)
    requires h != 0.0 && q * h == x
    ensures h > 0.0 ==> q.Floor as real * h <= x < (q.Floor + 1) as real * h
    ensures h < 0.0 ==> (q.Floor + 1) as real * h < x <= q.Floor as real * h
  {
    var lo, hi := q.Floor as real, (q.Floor + 1) as real;
    assert lo <= q < hi;
    if h > 0.0 {
      assert 0.0 <= (q - lo) * h && 0.0 < (hi - q) * h;
      assert lo * h <= x < hi * h;
    } else {
      assert (q - lo) * h <= 0.0 && (hi - q) * h < 0.0;
      assert hi * h < x <= lo * h;
    }
  }

  /** A walker whose squared speed is below a positive height gets a zero
      floor term. */
  lemma FloorTermZero(speed: real, height: real)
    requires height > 0.0 && speed * speed < height
    ensures WalkingFloorTerm(speed, height) == 0
  {
  }

  /** The divisions a summary performs are all defined: the duration is
      non-zero, and so is the height of a walker. */
  predicate NoZeroDivision(w: Workout) {
    w.duration != 0.0 && (w.SportsWalking? ==> w.height != 0.0)
  }

  /** Running calories, `Running.get_spent_calories`. In closed form the
      duration cancels out of the speed term, leaving 0.000702 per step per
      kilogram less 1.2 per kilogram per hour. */
  function RunningCalories(w: Workout): (r: real)
    requires w.Running? && w.duration != 0.0
    ensures r == 0.000702 * w.action * w.weight - 1.2 * w.weight * w.duration
  {
    var speed := MeanSpeed(w);
    RunningAlgebra(w.action, w.duration, w.weight, speed);
    (RunSpeedFactor * speed - RunSpeedShift) * w.weight / MetersInKm * DurationMinutes(w)
  }

  /** Sports-walking calories, `SportsWalking.get_spent_calories`: 2.1 per
      kilogram per hour, plus 1.74 per kilogram per hour for each whole
      height that fits under the squared speed. */
  function WalkingCalories(w: Workout): (r: real)
    requires w.SportsWalking? && NoZeroDivision(w)
    ensures r == (2.1 + 1.74 * WalkingFloorTerm(MeanSpeed(w), w.height) as real) * w.weight * w.duration
  {
    var k := WalkingFloorTerm(MeanSpeed(w), w.height) as real;
    WalkingAlgebra(w.duration, w.weight, k);
    (WalkWeightFactor * w.weight + k * WalkSpeedHeightFactor * w.weight) * DurationMinutes(w)
  }

  /** Swimming calories, `Swimming.get_spent_calories`: twice the weight
      times the pool kilometres per hour, plus 2.2 per kilogram. */
  function SwimmingCalories(w: Workout): (r: real)
    requires w.Swimming? && w.duration != 0.0
    ensures r == 2.0 * w.weight * (w.lengthPool * w.countPool / MetersInKm / w.duration) + 2.2 * w.weight
  {
    SwimmingAlgebra(w.weight, MeanSpeed(w));
    (MeanSpeed(w) + SwimSpeedShift) * SwimWeightFactor * w.weight
  }

  /** Calories spent: each variant overrides the calculation with its own
      formula, and the summary calls the override of the training's class. */
  function SpentCalories(w: Workout): (r: real)
    requires NoZeroDivision(w)
    ensures w.Running? ==> r == RunningCalories(w)
    ensures w.SportsWalking? ==> r == WalkingCalories(w)
    ensures w.Swimming? ==> r == SwimmingCalories(w)
  {
    match w
    case Running(_, _, _) => RunningCalories(w)
    case SportsWalking(_, _, _, _) => WalkingCalories(w)
    case Swimming(_, _, _, _, _) => SwimmingCalories(w)
  }

  /** The running formula, with `speed * duration` the distance, in closed form. */
  lemma RunningAlgebra(action: real, duration: real, weight: real, speed: real)
    requires speed * duration == action * StepLength / MetersInKm
    ensures (RunSpeedFactor * speed - RunSpeedShift) * weight / MetersInKm * (duration * MinutesInHour)
         == 0.000702 * action * weight - 1.2 * weight * duration
  {
    assert (RunSpeedFactor * speed - RunSpeedShift) * weight / MetersInKm * (duration * MinutesInHour)
        == 1.08 * (speed * duration) * weight - 1.2 * weight * duration;
  }

  /** The walking formula in closed form, for a floor term `k`. */
  lemma WalkingAlgebra(duration: real, weight: real, k: real)
    ensures (WalkWeightFactor * weight + k * WalkSpeedHeightFactor * weight) * (duration * MinutesInHour)
         == (2.1 + 1.74 * k) * weight * duration
  {
  }

  /** The swimming formula in closed form. */
  lemma SwimmingAlgebra(weight: real, speed: real)
    ensures (speed + SwimSpeedShift) * SwimWeightFactor * weight == 2.0 * weight * speed + 2.2 * weight
  {
  }

  /** The summary of a training. It fails exactly when one of the
      divisions it performs has a zero divisor. */
  function ShowTrainingInfo(w: Workout): (r: Result<InfoMessage>)
    ensures r.Success? <==> NoZeroDivision(w)
    ensures r.Failure? ==> r.error == ZeroDivision
    ensures r.Success? ==>
      && r.value.trainingType == Name(w)
      && r.value.duration == w.duration
      && r.value.distance == Distance(w)
      && r.value.speed == MeanSpeed(w)
      && r.value.calories == SpentCalories(w)
  {
    if NoZeroDivision(w) then
      Success(InfoMessage(Name(w), w.duration, Distance(w), MeanSpeed(w), SpentCalories(w)))
    else
      Failure(ZeroDivision)
  }

  // ---------------------------------------------------------------------------
  // Properties of the formulas
  // ---------------------------------------------------------------------------

  /** Distance is the action count times 0.65 m (1.38 m for a swimming
      stroke), converted to kilometres. */
  lemma DistanceUsesVariantStep(w: Workout)
    ensures !w.Swimming? ==> Distance(w) * 1000.0 == w.action * 0.65
    ensures w.Swimming? ==> Distance(w) * 1000.0 == w.action * 1.38
  {
  }

  /** With a positive duration the mean speed is never negative, provided the
      step count (or, for swimming, the pool distance) is not. */
  lemma MeanSpeedNonNegative(w: Workout)
    requires w.duration > 0.0
    requires !w.Swimming? ==> w.action >= 0.0
    requires w.Swimming? ==> w.lengthPool * w.countPool >= 0.0
    ensures MeanSpeed(w) >= 0.0
  {
  }

  /** Swimming speed does not depend on the stroke count: two swims that
      differ only in strokes have the same speed, and different distances
      exactly when the stroke counts differ. */
  lemma SwimmingSpeedIgnoresStrokes(a1: real, a2: real, d: real, weight: real, l: real, c: real)
    requires d != 0.0
    ensures MeanSpeed(Swimming(a1, d, weight, l, c)) == MeanSpeed(Swimming(a2, d, weight, l, c))
    ensures SpentCalories(Swimming(a1, d, weight, l, c)) == SpentCalories(Swimming(a2, d, weight, l, c))
    ensures Distance(Swimming(a1, d, weight, l, c)) == Distance(Swimming(a2, d, weight, l, c)) <==> a1 == a2
  {
  }

  /** For a positive weight and duration, running burns calories exactly when
      18 times the mean speed exceeds 20. */
  lemma RunningCaloriesSign(w: Workout)
    requires w.Running? && w.duration > 0.0 && w.weight > 0.0
    ensures SpentCalories(w) > 0.0 <==> RunSpeedFactor * MeanSpeed(w) > RunSpeedShift
    ensures SpentCalories(w) == 0.0 <==> RunSpeedFactor * MeanSpeed(w) == RunSpeedShift
  {
    var x := RunSpeedFactor * MeanSpeed(w) - RunSpeedShift;
    var f := w.weight / MetersInKm * DurationMinutes(w);
    assert f > 0.0;
    assert SpentCalories(w) == x * f;
    SignOfProduct(x, f);
  }

  /** A product with a positive factor has the other factor's sign. */
  lemma SignOfProduct(x: real, f: real)
    requires f > 0.0
    ensures x * f > 0.0 <==> x > 0.0
    ensures x * f == 0.0 <==> x == 0.0
  {
    if x > 0.0 {
      assert x * f > 0.0;
    } else if x < 0.0 {
      assert x * f < 0.0;
    }
  }

  /** A walker whose squared speed is below the height gets no speed term:
      the calories reduce to 0.035 per kilogram per minute. */
  lemma WalkingSlowIsFlat(w: Workout)
    requires w.SportsWalking? && w.duration != 0.0 && w.height > 0.0
    requires MeanSpeed(w) * MeanSpeed(w) < w.height
    ensures SpentCalories(w) == WalkWeightFactor * w.weight * DurationMinutes(w)
  {
    FloorTermZero(MeanSpeed(w), w.height);
  }

  /** The walking formula with true division in place of floor division. */
  function WalkingCaloriesTrueDivision(w: Workout): real
    requires w.SportsWalking? && NoZeroDivision(w)
  {
    var s := MeanSpeed(w);
    (WalkWeightFactor * w.weight + s * s / w.height * WalkSpeedHeightFactor * w.weight)
    * DurationMinutes(w)
  }

  /** Floor division never raises the walking calories above the true-division
      formula, and lowers them by less than one unit of the speed term. */
  lemma WalkingFloorBelowTrueDivision(w: Workout)
    requires w.SportsWalking? && w.duration > 0.0 && w.height > 0.0 && w.weight > 0.0
    ensures SpentCalories(w) <= WalkingCaloriesTrueDivision(w)
    ensures WalkingCaloriesTrueDivision(w) - SpentCalories(w)
          < WalkSpeedHeightFactor * w.weight * DurationMinutes(w)
  {
    var s := MeanSpeed(w);
    var q := s * s / w.height;
    var k := WalkingFloorTerm(s, w.height);
    FloorTermIsFloor(s, w.height);
    TrueDivisionClosedForm(w);
    assert SpentCalories(w) == (2.1 + 1.74 * k as real) * w.weight * w.duration;
    ReplacingByFloor(k as real, q, w.weight, w.duration);
  }

  /** The true-division walking formula in closed form. */
  lemma TrueDivisionClosedForm(w: Workout)
    requires w.SportsWalking? && NoZeroDivision(w)
    ensures WalkingCaloriesTrueDivision(w)
         == (2.1 + 1.74 * (MeanSpeed(w) * MeanSpeed(w) / w.height)) * w.weight * w.duration
  {
    WalkingAlgebra(w.duration, w.weight, MeanSpeed(w) * MeanSpeed(w) / w.height);
  }

  /** The floor term is the floor of the squared speed over the height. */
  lemma FloorTermIsFloor(speed: real, height: real)
    requires height != 0.0
    ensures WalkingFloorTerm(speed, height) == (speed * speed / height).Floor
  {
  }

  /** Replacing `q` by its floor `k` in the closed walking formula lowers the
      value by less than one unit of the speed term, for a positive weight
      and duration. */
  lemma ReplacingByFloor(k: real, q: real, weight: real, duration: real)
    requires k <= q < k + 1.0 && weight > 0.0 && duration > 0.0
    ensures (2.1 + 1.74 * k) * weight * duration <= (2.1 + 1.74 * q) * weight * duration
    ensures (2.1 + 1.74 * q) * weight * duration - (2.1 + 1.74 * k) * weight * duration
          < WalkSpeedHeightFactor * weight * (duration * MinutesInHour)
  {
    var u := weight * duration;
    assert u > 0.0;
    assert (2.1 + 1.74 * q) * weight * duration - (2.1 + 1.74 * k) * weight * duration
        == 1.74 * (q - k) * u;
    assert 0.0 <= (q - k) * u < u;
  }

  /** Swimming always burns calories when the weight and duration are
      positive and the pool distance is not negative. */
  lemma SwimmingCaloriesPositive(w: Workout)
    requires w.Swimming? && w.duration > 0.0 && w.weight > 0.0
    requires w.lengthPool * w.countPool >= 0.0
    ensures SpentCalories(w) > 0.0
  {
  }
}
